=== FILE: README.md ===
# MicroNet architecture shapes in Dafny

A model of the integer logic in `MicroNet_imagenet`, an ImageNet classifier
built from inverted-residual blocks (`MicroBlock`s). The model covers:
- how the stage table `(expansion, out_planes, num_blocks, stride)` is rescaled
  by a width factor and a depth factor (`change_cfg`);
- how the table is expanded into a flat chain of blocks (`_make_layers`);
- what structure each block derives from its arguments (`MicroBlock.__init__`);
- how tensor shapes flow through a block and through the whole network
  (`MicroBlock.forward`, `MicroNet_imagenet.forward`), including the rule that
  the residual is added only on stride-1 blocks.

No tensors are modelled: a layer is the record of the integers its
constructor receives. A tensor is its per-sample shape
`(channels, height, width)`. Construction fails (`None`) for an empty
table and when `reset_parameters` would divide by a zero-width
convolution. A layer application either yields the next shape or fails
on a channel mismatch, an input too small for the kernel, or a block
whose stride left its depthwise convolution unassigned.

Modules:
- `StageConfig` (`stage_config.dfy`): the default table, factors as exact
  fractions, `Scale` (`int(x * f)`), `ChangeCfg`.
- `Blocks` (`blocks.dfy`): `BlockSpec`, the strides and blocks of one stage,
  `Layers` (the expansion as a function), `MakeLayers` (the two nested loops
  as written, proved equal to `Layers`).
- `Shapes` (`shapes.dfy`): the shape rules of the library layers the file uses.
  These are convolution output size, batch-norm channel check, 1x1 adaptive
  pooling and broadcasting.
- `MicroBlocks` (`micro_block.dfy`): `Build` (the constructor), the
  shortcut and squeeze-excitation structure, and two readings of `forward`.
  `ForwardAsWritten` follows the code as written. `Forward` is the corrected
  one (see Findings). The network's forward takes the reading as a
  parameter, and every shape theorem about it holds for both.
- `MicroNet` (`micro_net.dfy`): stem, blocks, last convolution and
  classifier, and the network's shape flow.
- `DefaultNet` (`default_net.dfy`): facts about the default table: 18 blocks,
  three projections, four down-sampling blocks, 224x224 to 7x7.
- `Wrappers` (`wrappers.dfy`): the `Option` type.

The library shape rules in `Shapes` (`Norm`, `Pool`, `Broadcast`,
`ApplyConv`) are PyTorch's behaviour, which this file relies on but does not
define. They follow PyTorch's documented shape rules for stride, padding and dilation 1. Batch normalisation is modelled as in evaluation mode; its training-mode error on a single value per channel is not modelled (see Left out).

## Model

| member | source | states |
|---|---|---|
| StageConfig.Scale | Models/MicroNet_imagenet.py:193 | `int(x * f)` for a non-negative fraction f = num/den is the floor: r * den <= x * num < (r + 1) * den |
| StageConfig.ScaleMonotone | Models/MicroNet_imagenet.py:193 | a wider row never ends up narrower after rescaling: x <= y implies int(x * f) <= int(y * f) |
| StageConfig.ChangeCfg | Models/MicroNet_imagenet.py:191-195 | the table keeps its length; every row keeps its expansion and stride; every row's out_planes is scaled by the width factor; num_blocks is scaled by the depth factor on stride-1 rows and kept on all others |
| StageConfig.ChangeCfgUnit | Models/MicroNet_imagenet.py:191-195 | with the default factors (1, 1) the table comes back unchanged |
| StageConfig.ChangeCfgKeepsStrides | Models/MicroNet_imagenet.py:192-195 | a table whose strides are all 1 or 2 still has only strides 1 and 2 after rescaling |
| StageConfig.DefaultStridesSupported | Models/MicroNet_imagenet.py:110-120 | every stride of the default table is 1 or 2, so every block gets a depthwise convolution |
| Blocks.StageStrides | Models/MicroNet_imagenet.py:185 | a stage yields max(num_blocks, 1) strides: the stage's stride first, stride 1 for the rest |
| Blocks.StageBlocks | Models/MicroNet_imagenet.py:186-188 | one block per stride, all with the stage's expansion and width; the first takes the incoming width, every later one the stage's own width |
| Blocks.Layers | Models/MicroNet_imagenet.py:182-189 | the expansion has sum of max(num_blocks, 1) blocks; the first block's input width is the stem width; every later block's input width is its predecessor's output width; the last block's output width is the last row's out_planes |
| Blocks.LayersLayout | Models/MicroNet_imagenet.py:184-188 | blocks come stage by stage in table order. Block k of stage j sits at index Offset(j) + k and has the stage's expansion and width. Its stride is the stage's when k = 0 and 1 otherwise. Its input width is the previous stage's width (the stem's for j = 0) when k = 0, and the stage's own width otherwise |
| Blocks.StageBlocksClosedForm | Models/MicroNet_imagenet.py:185-188 | a stage's blocks are one block from the incoming width at the stage's stride, followed by max(num_blocks, 1) - 1 stride-1 blocks at the stage's width |
| Blocks.LayersSnoc | Models/MicroNet_imagenet.py:184-188 | appending a row to the table appends exactly that row's blocks, fed by the width the table produced so far |
| Blocks.MakeLayers | Models/MicroNet_imagenet.py:182-189 | the nested loops with `in_planes = out_planes` after every block compute exactly `Layers` |
| Shapes.ConvOutSize | Models/MicroNet_imagenet.py:42-49 | a convolution's output length is defined iff the padded input is at least the kernel. It is then the number of kernel placements at the given stride that fit: (r - 1) * s + k <= n + 2p < r * s + k |
| Shapes.DepthwiseOutSize | Models/MicroNet_imagenet.py:44-47 | 3x3 with padding 1 at stride 1 keeps every length n >= 1. 5x5 with padding 2 at stride 2 maps n to (n + 1) / 2. Both are ceil(n / stride) |
| MicroBlocks.DepthwiseConv | Models/MicroNet_imagenet.py:44-47 | a depthwise convolution exists exactly for strides 1 and 2. It is depthwise (groups = channels), has stride s, kernel 2s + 1 and padding s |
| MicroBlocks.SqueezeWidth | Models/MicroNet_imagenet.py:75 | the squeeze width r is out_planes / 4 floored: 4r <= out_planes < 4r + 4 |
| MicroBlocks.Build | Models/MicroNet_imagenet.py:37-78 | hidden width is expansion * in_planes. The depthwise layer exists iff the stride is 1 or 2, and carries that stride. The shortcut is a projection iff stride = 1 and in_planes != out_planes. SE layers exist iff add_se, and their squeeze width is out_planes / 4. Every layer's channel counts match its neighbours' (`Wired`) |
| MicroBlocks.BuildInitialisable | Models/MicroNet_imagenet.py:154-158 | `reset_parameters` divides by kernel * kernel * out_channels for every convolution. A block survives it iff its hidden width expansion * in_planes is non-zero, out_planes is non-zero, and with squeeze-excitation out_planes >= 4 |
| MicroBlocks.ShortcutMatchesOutput | Models/MicroNet_imagenet.py:64-69 | on every stride-1 block the shortcut yields out_planes channels, and a projection is built only when in_planes != out_planes |
| MicroBlocks.MainBranchShape | Models/MicroNet_imagenet.py:82-86 | conv1, bn1, conv2, bn2, conv3, bn3 take an in_planes x H x W input to out_planes x ceil(H/s) x ceil(W/s) |
| MicroBlocks.GateShape | Models/MicroNet_imagenet.py:90-92 | pooling, fc1 and fc2 turn an out_planes-channel map into an out_planes x 1 x 1 gate: fc1's output width is fc2's input width, and the gate matches the tensor it scales |
| MicroBlocks.ResidualWellShaped | Models/MicroNet_imagenet.py:97 | on a stride-1 block both operands of the residual add are out_planes x H x W, so the add needs no broadcasting |
| MicroBlocks.ForwardAsWritten | Models/MicroNet_imagenet.py:82-98 | as written, the residual is added iff the stride is 1, and the SE gate is applied only on stride-1 SE blocks |
| MicroBlocks.Forward | Models/MicroNet_imagenet.py:82-98 | the corrected forward applies the SE gate iff the block has SE layers, and adds the residual iff the stride is 1 |
| MicroBlocks.ForwardShape | Models/MicroNet_imagenet.py:82-98 | under the corrected reading a block runs iff its stride is 1 or 2 and the input has in_planes channels and a non-empty map. It then yields out_planes x ceil(H/s) x ceil(W/s) |
| MicroBlocks.SeGateDroppedOnStrideTwo | Models/MicroNet_imagenet.py:94 | on an accepted input to a stride-2 SE block, the forward as written returns the ungated branch, while the corrected one applies the gate |
| MicroBlocks.AsWrittenDiffersOnlyInGate | Models/MicroNet_imagenet.py:89-97 | the two readings fail on the same inputs, yield the same shape and add the residual on the same blocks. They disagree on the gate exactly on stride-2 SE blocks |
| MicroBlocks.RunShape | Models/MicroNet_imagenet.py:82-98 | under either reading, as written or corrected, a block runs iff its stride is 1 or 2 and the input is accepted, and then yields out_planes x ceil(H/s) x ceil(W/s) |
| MicroNet.FromCfg | Models/MicroNet_imagenet.py:128-158 | construction fails iff the table is empty (`cfg[-1]`) or some row has expansion 0, out_planes 0, or with squeeze-excitation out_planes < 4 (a zero-width convolution in `reset_parameters`). Otherwise block i is the `MicroBlock` built from expanded spec i with the network's add_se and activation, and every block uses the stem's activation kind. The stem's 32 output channels feed the first block. The last block's width feeds last_conv, whose 640 outputs feed the classifier |
| MicroNet.LayersInitialisable | Models/MicroNet_imagenet.py:154-158 | from a non-empty stem width, every expanded block survives `reset_parameters` iff every row of the table does (non-zero expansion and width, width >= 4 with squeeze-excitation) |
| MicroNet.MicroNetImagenet | Models/MicroNet_imagenet.py:103-140 | a built network comes from the rescaled default table, has at least one block per row, and classifies into num_classes |
| MicroNet.MicroNetImagenetBuilds | Models/MicroNet_imagenet.py:103-158 | the constructor succeeds iff the narrowest row, 16 wide before rescaling, keeps `int(16 * wide_factor) >= 4` channels with squeeze-excitation, or >= 1 without; e.g. wide_factor 0.2 with add_se fails |
| MicroNet.DefaultBuilds | Models/MicroNet_imagenet.py:103-158 | with the default factors (1, 1) the constructor always succeeds |
| MicroNet.TotalBlocksAtLeastStages | Models/MicroNet_imagenet.py:184-188 | every row yields at least one block, even when depth scaling leaves num_blocks = 0 |
| MicroNet.ForwardBlocksShape | Models/MicroNet_imagenet.py:210-212 | under either reading of the block forward, a chained list of stride-1/2 blocks runs on every non-empty input of the first block's width. It yields the last block's width, each length divided by each stride and rounded up, and never empty |
| MicroNet.LayersStridesSupported | Models/MicroNet_imagenet.py:184-188 | a table whose strides are all 1 or 2 expands into blocks whose strides are all 1 or 2 |
| MicroNet.NetForwardShape | Models/MicroNet_imagenet.py:210-218 | for every factor pair the network can be built with, and under either reading, the network runs iff the input has 3 channels and a non-empty map, and then yields num_classes logits per sample |
| MicroNet.LayersStrideTwoCount | Models/MicroNet_imagenet.py:185 | a stage down-samples at most once: the expansion has exactly one stride-2 block per stride-2 row, whatever num_blocks is |
| MicroNet.SpatialAfterHalves | Models/MicroNet_imagenet.py:44-47 | stride-1 blocks keep the spatial size, so the blocks' output length is the input halved (rounding up) once per stride-2 block |
| MicroNet.ChangeCfgKeepsStrideTwoStages | Models/MicroNet_imagenet.py:194-195 | rescaling keeps the number of stride-2 rows |
| MicroNet.TableFeatureMap | Models/MicroNet_imagenet.py:182-189 | under either reading, the blocks of any table with strides 1 and 2 turn a non-empty map of the input width into a map of the last row's width, each axis halved (rounding up) once per stride-2 row |
| DefaultNet.DefaultExpansion | Models/MicroNet_imagenet.py:110-120 | the default table expands from the 32-channel stem to the listed 18 blocks |
| DefaultNet.DefaultBlocks | Models/MicroNet_imagenet.py:135 | the default network with factors (1, 1) is built, and its blocks are exactly those built from the 18 specs |
| DefaultNet.DefaultBlockCount | Models/MicroNet_imagenet.py:123 | the default network with factors (1, 1) is built and has 18 blocks |
| DefaultNet.DefaultProjections | Models/MicroNet_imagenet.py:64-69 | exactly three default blocks get a projection: block 0 (32 to 16), block 11 (80 to 96) and block 17 (192 to 320) |
| DefaultNet.DefaultGateDropped | Models/MicroNet_imagenet.py:94 | the stride-2 default blocks are exactly 2, 5, 8 and 13. On each of them the forward as written returns the ungated main branch for every accepted input |
| DefaultNet.RescaledFeatureMap | Models/MicroNet_imagenet.py:191-195 | for every factor pair, under either reading, the rescaled default blocks map 112x112 to 7x7, with `int(320 * wide_factor)` channels |
| DefaultNet.StemOutput | Models/MicroNet_imagenet.py:133 | the 3x3, stride-2, padding-1 stem takes a 3 x 224 x 224 image to 32 x 112 x 112 |
| DefaultNet.DefaultFeatureMap | Models/MicroNet_imagenet.py:133-137 | for every factor pair the network can be built with, a 224x224 image leaves the stem at 112x112 and, under either reading, reaches last_conv as a 7x7 map of `int(320 * wide_factor)` channels |

## Left out

- Tensor values: convolution, batch-norm, HSwish, ReLU, ReLU6, sigmoid, dropout and pooling arithmetic are floating-point numerics inside PyTorch. Only their shape rules are modelled, and activations and dropout keep the shape.
- `HSwish.forward` (lines 29-30): pure floating-point arithmetic.
- `reset_parameters` and `reset_custom_parameters` (lines 154-180): the random normal values they draw are not modelled. Only the division by kernel * kernel * out_channels is, as the construction failure it causes on a zero-width convolution. `reset_custom_parameters` is also a no-op: the only child whose name contains `layer` is `layers`, which contains none of `conv1`, `conv2`, `conv3`.
- `set_config` (lines 198-208), the CUDA device choice, the loss and the `device` argument of `MicroBlock`: they only store values and affect no structure.
- Width and depth factors are exact non-negative fractions. Python multiplies IEEE doubles before `int()`, so a product that rounds just below an integer can truncate one lower than the exact floor. For example, `int(100 * 0.29)` is 28, while 100 * 29/100 is exactly 29. Negative factors are not modelled.
- PyTorch's own argument checks are not modelled separately. A hidden width of 0 would also give `groups=0` to the depthwise convolution, but the same block already fails in `reset_parameters`, so the constructor fails on the same inputs either way. A spatial length of 0 entering pooling is not modelled.
- The batch dimension is left implicit. The same batch size flows through every layer, and `out.view(out.size(0), -1)` only flattens the remaining dimensions.
- MicroNet.NetForwardShape: does not model training-mode `BatchNorm2d`, which raises when batch * H * W == 1 (one value per channel), because the batch size is not part of the model. With a batch of one, an image fails at the first batch norm that sees a 1 x 1 map. Where that is depends on the image's larger side: up to 2 fails at `bn1` (line 211); 3 to 4 at `bn2` (line 85) of the first stride-2 block; 5 to 8 at the second; 9 to 16 at the third; 17 to 32 at the fourth, which is block 13 of the default table. The "runs iff" holds in evaluation mode, and in training mode for a batch of two or more.
- MicroBlocks.ForwardShape: the training-mode batch-of-one error is not modelled. A stride-2 block with a 1 x 1 depthwise output, or any block given a 1 x 1 input, raises at a batch norm with a batch of one. Its "runs iff" holds in evaluation mode or for a batch of two or more.
- MicroBlocks.RunShape: the same training-mode batch-of-one error is not modelled, under either reading. Its "runs iff" holds in evaluation mode or for a batch of two or more.
- MicroNet.ForwardBlocksShape: the same training-mode batch-of-one error is not modelled. A chain whose map reaches 1 x 1 raises with a batch of one. The promise holds in evaluation mode or for a batch of two or more.
- MicroNet.TableFeatureMap: the same training-mode batch-of-one error is not modelled. Inputs that the stride-2 rows take down to 1 x 1 raise with a batch of one. The promise holds in evaluation mode or for a batch of two or more.
- Activation functions are recorded only by kind (`ReLU` or `HSwish`).

## Findings

| source | as written | input that shows it | evidently intended | confidence | as-written member | corrected member |
|---|---|---|---|---|---|---|
| Models/MicroNet_imagenet.py:94 | In the squeeze-excitation branch the conditional expression binds looser than `*` and `+`. A stride-2 block computes the gate `w` and then returns `out` ungated. | any stride-2 block built with add_se = True, e.g. default block 2 (16 to 24 channels, stride 2) on a 16 x 56 x 56 input | the gate scales the branch on every SE block, and the residual is added only on stride-1 blocks, as on line 97 | medium; not executed | MicroBlocks.ForwardAsWritten, shown by MicroBlocks.SeGateDroppedOnStrideTwo | MicroBlocks.Forward, with the gate property proved in its contract. MicroBlocks.AsWrittenDiffersOnlyInGate and MicroBlocks.RunShape show that the network's shapes are the same under both readings |

=== FILE: blocks.dfy ===
/** Expansion of the stage table into the flat list of blocks
    (`MicroNet_imagenet._make_layers`). */
module Blocks {
  import opened StageConfig

  /** The constructor arguments of one `MicroBlock`: (in_planes, out_planes, expansion, stride). */
  datatype BlockSpec = BlockSpec(inPlanes: nat, outPlanes: nat, expansion: nat, stride: nat)

  /** Python's `[x] * n`, which is empty when n <= 0. */
  function Repeat<T>(x: T, n: int): (r: seq<T>)
    ensures |r| == if n <= 0 then 0 else n
    ensures forall i :: 0 <= i < |r| ==> r[i] == x
    decreases n
  {
    if n <= 0 then [] else [x] + Repeat(x, n - 1)
  }

  /** Number of blocks a stage yields: `num_blocks`, but at least one. */
  function StageLength(s: StageCfg): nat {
    if s.numBlocks <= 1 then 1 else s.numBlocks
  }

  /** The strides of one stage: `[stride] + [1] * (num_blocks - 1)`. */
  function StageStrides(s: StageCfg): (r: seq<nat>)
    ensures |r| == StageLength(s)
    ensures r[0] == s.stride
    ensures forall i :: 1 <= i < |r| ==> r[i] == 1
  {
    [s.stride] + Repeat(1, s.numBlocks - 1)
  }

  /** The blocks of one stage, one per stride: the first takes `inPlanes`,
      every later one the stage's own width. */
  function StageBlocks(inPlanes: nat, s: StageCfg, strides: seq<nat>): (r: seq<BlockSpec>)
    ensures |r| == |strides|
    ensures forall k :: 0 <= k < |r| ==>
              && r[k].outPlanes == s.outPlanes
              && r[k].expansion == s.expansion
              && r[k].stride == strides[k]
              && r[k].inPlanes == (if k == 0 then inPlanes else s.outPlanes)
    decreases |strides|
  {
    if |strides| == 0 then []
    else [BlockSpec(inPlanes, s.outPlanes, s.expansion, strides[0])]
         + StageBlocks(s.outPlanes, s, strides[1..])
  }

  /** Total number of blocks the table yields. */
  function TotalBlocks(cfg: seq<StageCfg>): nat {
    if |cfg| == 0 then 0 else StageLength(cfg[0]) + TotalBlocks(cfg[1..])
  }

  /** Index of the first block of stage j. */
  function Offset(cfg: seq<StageCfg>, j: nat): nat
    requires j <= |cfg|
  {
    TotalBlocks(cfg[..j])
  }

  /** Each block's input width is the previous block's output width, and
      the first block's is `inPlanes`. */
  predicate Chained(blocks: seq<BlockSpec>, inPlanes: nat) {
    && (|blocks| > 0 ==> blocks[0].inPlanes == inPlanes)
    && forall i :: 0 < i < |blocks| ==> blocks[i].inPlanes == blocks[i - 1].outPlanes
  }

  /** The width flowing out of a prefix of the table. */
  function WidthAfter(cfg: seq<StageCfg>, inPlanes: nat): nat {
    if |cfg| == 0 then inPlanes else cfg[|cfg| - 1].outPlanes
  }

  /** `_make_layers` as a function over the table. */
  function Layers(cfg: seq<StageCfg>, inPlanes: nat): (r: seq<BlockSpec>)
    ensures |r| == TotalBlocks(cfg)
    ensures Chained(r, inPlanes)
    ensures |cfg| > 0 ==> |r| > 0 && r[|r| - 1].outPlanes == cfg[|cfg| - 1].outPlanes
  {
    if |cfg| == 0 then []
    else
      var head := StageBlocks(inPlanes, cfg[0], StageStrides(cfg[0]));
      var tail := Layers(cfg[1..], cfg[0].outPlanes);
      head + tail
  }

  /** Stage j's blocks sit at indices Offset(cfg, j) .. Offset(cfg, j) + StageLength(cfg[j]) - 1,
      in table order: block k of stage j has the stage's expansion and width,
      the stage's stride when k = 0 and stride 1 otherwise, and takes its
      input width from the block before it. */
  lemma {:induction false} LayersLayout(cfg: seq<StageCfg>, inPlanes: nat, j: nat, k: nat)
    requires j < |cfg| && k < StageLength(cfg[j])
    ensures Offset(cfg, j) + k < |Layers(cfg, inPlanes)|
    ensures var b := Layers(cfg, inPlanes)[Offset(cfg, j) + k];
            && b.expansion == cfg[j].expansion
            && b.outPlanes == cfg[j].outPlanes
            && b.stride == (if k == 0 then cfg[j].stride else 1)
            && b.inPlanes == (if k > 0 then cfg[j].outPlanes
                              else if j == 0 then inPlanes
                              else cfg[j - 1].outPlanes)
  {
    var head := StageBlocks(inPlanes, cfg[0], StageStrides(cfg[0]));
    var tail := Layers(cfg[1..], cfg[0].outPlanes);
    assert Layers(cfg, inPlanes) == head + tail;
    if j == 0 {
      assert cfg[..0] == [];
    } else {
      assert cfg[..j][0] == cfg[0];
      assert cfg[..j][1..] == cfg[1..][..j - 1];
      assert Offset(cfg, j) == |head| + Offset(cfg[1..], j - 1);
      LayersLayout(cfg[1..], cfg[0].outPlanes, j - 1, k);
    }
  }

  /** Appending one block to a stage's stride list appends one block. */
  lemma StageBlocksSnoc(inPlanes: nat, s: StageCfg, strides: seq<nat>, k: nat)
    requires k < |strides|
    ensures StageBlocks(inPlanes, s, strides[..k + 1])
            == StageBlocks(inPlanes, s, strides[..k])
               + [BlockSpec(if k == 0 then inPlanes else s.outPlanes, s.outPlanes, s.expansion, strides[k])]
  {
    var lhs := StageBlocks(inPlanes, s, strides[..k + 1]);
    var rhs := StageBlocks(inPlanes, s, strides[..k])
               + [BlockSpec(if k == 0 then inPlanes else s.outPlanes, s.outPlanes, s.expansion, strides[k])];
    assert |lhs| == |rhs|;
    forall i | 0 <= i < |lhs|
      ensures lhs[i] == rhs[i]
    {
    }
  }

  /** Appending one stage to the table appends that stage's blocks. */
  lemma {:induction false} LayersSnoc(cfg: seq<StageCfg>, s: StageCfg, inPlanes: nat)
    ensures Layers(cfg + [s], inPlanes)
            == Layers(cfg, inPlanes) + StageBlocks(WidthAfter(cfg, inPlanes), s, StageStrides(s))
  {
    var c := cfg + [s];
    if |cfg| == 0 {
      assert c == [s] && c[1..] == [];
      assert Layers(c, inPlanes) == StageBlocks(inPlanes, s, StageStrides(s)) + Layers([], s.outPlanes);
    } else {
      var head := StageBlocks(inPlanes, cfg[0], StageStrides(cfg[0]));
      assert c[0] == cfg[0] && c[1..] == cfg[1..] + [s];
      assert Layers(c, inPlanes) == head + Layers(cfg[1..] + [s], cfg[0].outPlanes);
      assert Layers(cfg, inPlanes) == head + Layers(cfg[1..], cfg[0].outPlanes);
      LayersSnoc(cfg[1..], s, cfg[0].outPlanes);
      assert WidthAfter(cfg[1..], cfg[0].outPlanes) == WidthAfter(cfg, inPlanes);
    }
  }

  /** `_make_layers` as written: one loop over the stages, one over each
      stage's strides, with `in_planes` carried from block to block. */
  method MakeLayers(cfg: seq<StageCfg>, inPlanes0: nat) returns (layers: seq<BlockSpec>)
    ensures layers == Layers(cfg, inPlanes0)
  {
    layers := [];
    var inPlanes := inPlanes0;
    var i := 0;
    while i < |cfg|
      invariant 0 <= i <= |cfg|
      invariant inPlanes == WidthAfter(cfg[..i], inPlanes0)
      invariant layers == Layers(cfg[..i], inPlanes0)
    {
      var s := cfg[i];
      var strides := StageStrides(s);
      ghost var before := layers;
      ghost var stageIn := inPlanes;
      var k := 0;
      while k < |strides|
        invariant 0 <= k <= |strides|
        invariant inPlanes == if k == 0 then stageIn else s.outPlanes
        invariant layers == before + StageBlocks(stageIn, s, strides[..k])
      {
        StageBlocksSnoc(stageIn, s, strides, k);
        layers := layers + [BlockSpec(inPlanes, s.outPlanes, s.expansion, strides[k])];
        inPlanes := s.outPlanes;
        k := k + 1;
      }
      assert strides[..k] == strides;
      LayersSnoc(cfg[..i], s, inPlanes0);
      assert cfg[..i + 1] == cfg[..i] + [s];
      i := i + 1;
    }
    assert cfg[..i] == cfg;
  }

  /** A stage's blocks in closed form: one block of the stage's stride from
      `inPlanes`, then `StageLength - 1` stride-1 blocks at the stage's width. */
  lemma StageBlocksClosedForm(inPlanes: nat, s: StageCfg)
    ensures StageBlocks(inPlanes, s, StageStrides(s))
            == [BlockSpec(inPlanes, s.outPlanes, s.expansion, s.stride)]
               + Repeat(BlockSpec(s.outPlanes, s.outPlanes, s.expansion, 1), StageLength(s) - 1)
  {
    var lhs := StageBlocks(inPlanes, s, StageStrides(s));
    var rhs := [BlockSpec(inPlanes, s.outPlanes, s.expansion, s.stride)]
               + Repeat(BlockSpec(s.outPlanes, s.outPlanes, s.expansion, 1), StageLength(s) - 1);
    assert |lhs| == |rhs|;
    forall i | 0 <= i < |lhs|
      ensures lhs[i] == rhs[i]
    {
    }
  }

  /** One step of the expansion: the first stage's blocks, then the rest
      of the table from the first stage's width. */
  lemma LayersCons(cfg: seq<StageCfg>, inPlanes: nat)
    requires |cfg| > 0
    ensures Layers(cfg, inPlanes)
            == [BlockSpec(inPlanes, cfg[0].outPlanes, cfg[0].expansion, cfg[0].stride)]
               + Repeat(BlockSpec(cfg[0].outPlanes, cfg[0].outPlanes, cfg[0].expansion, 1), StageLength(cfg[0]) - 1)
               + Layers(cfg[1..], cfg[0].outPlanes)
  {
    StageBlocksClosedForm(inPlanes, cfg[0]);
  }
}

=== FILE: default_net.dfy ===
/** Facts about the network built from the default stage table. */
module DefaultNet {
  import opened Wrappers
  import opened StageConfig
  import opened Shapes
  import opened Blocks
  import opened MicroBlocks
  import opened MicroNet

  /** The default table expanded from the 32-channel stem. */
  const DefaultLayers: seq<BlockSpec> := [
    BlockSpec(32, 16, 1, 1), BlockSpec(16, 16, 1, 1),
    BlockSpec(16, 24, 3, 2),
    BlockSpec(24, 24, 3, 1), BlockSpec(24, 24, 3, 1),
    BlockSpec(24, 40, 3, 2),
    BlockSpec(40, 40, 3, 1), BlockSpec(40, 40, 3, 1),
    BlockSpec(40, 80, 3, 2),
    BlockSpec(80, 80, 3, 1), BlockSpec(80, 80, 3, 1),
    BlockSpec(80, 96, 3, 1), BlockSpec(96, 96, 3, 1),
    BlockSpec(96, 192, 3, 2),
    BlockSpec(192, 192, 3, 1), BlockSpec(192, 192, 3, 1), BlockSpec(192, 192, 3, 1),
    BlockSpec(192, 320, 3, 1)
  ]

  /** Stages 5 to 10 of the default table, entered at width 40. */
  lemma {:induction false} DefaultExpansionLast()
    ensures Layers(DefaultCfg[5..], 40) == DefaultLayers[8..]
  {
    var c := DefaultCfg;
    LayersCons(c[10..], 192);
    assert c[10..][1..] == [];
    assert Layers(c[10..], 192) == DefaultLayers[17..];
    LayersCons(c[9..], 192);
    assert c[9..][1..] == c[10..];
    assert Layers(c[9..], 192) == DefaultLayers[14..];
    LayersCons(c[8..], 96);
    assert c[8..][1..] == c[9..];
    assert Layers(c[8..], 96) == DefaultLayers[13..];
    LayersCons(c[7..], 80);
    assert c[7..][1..] == c[8..];
    assert Layers(c[7..], 80) == DefaultLayers[11..];
    LayersCons(c[6..], 80);
    assert c[6..][1..] == c[7..];
    assert Layers(c[6..], 80) == DefaultLayers[9..];
    LayersCons(c[5..], 40);
    assert c[5..][1..] == c[6..];
    assert Layers(c[5..], 40) == DefaultLayers[8..];
  }

  /** Stages 3 to 10 of the default table, entered at width 24. */
  lemma {:induction false} DefaultExpansionMiddle()
    ensures Layers(DefaultCfg[3..], 24) == DefaultLayers[5..]
  {
    var c := DefaultCfg;
    DefaultExpansionLast();
    LayersCons(c[4..], 40);
    assert c[4..][1..] == c[5..];
    assert Layers(c[4..], 40) == DefaultLayers[6..];
    LayersCons(c[3..], 24);
    assert c[3..][1..] == c[4..];
    assert Layers(c[3..], 24) == DefaultLayers[5..];
  }

  /** With the default table the stem feeds 18 blocks, stage by stage. */
  lemma {:induction false} DefaultExpansion()
    ensures Layers(DefaultCfg, InputChannel) == DefaultLayers
  {
    var c := DefaultCfg;
    DefaultExpansionMiddle();
    LayersCons(c[2..], 24);
    assert c[2..][1..] == c[3..];
    assert Layers(c[2..], 24) == DefaultLayers[3..];
    LayersCons(c[1..], 16);
    assert c[1..][1..] == c[2..];
    assert Layers(c[1..], 16) == DefaultLayers[2..];
    LayersCons(c, 32);
  }

  /** The blocks of the default network with factors (1, 1). */
  lemma DefaultBlocks(numClasses: nat, addSe: bool, activation: string)
    ensures MicroNetImagenet(numClasses, Unit, Unit, addSe, activation).Some?
    ensures MicroNetImagenet(numClasses, Unit, Unit, addSe, activation).value.blocks
            == BuildBlocks(DefaultLayers, addSe, activation)
  {
    DefaultBuilds(numClasses, addSe, activation);
    ChangeCfgUnit(DefaultCfg);
    DefaultExpansion();
    var n := MicroNetImagenet(numClasses, Unit, Unit, addSe, activation).value;
    assert n.blocks == BuildBlocks(Layers(DefaultCfg, InputChannel), addSe, activation);
  }

  /** The default network, (1, 1) factors, has 18 blocks. */
  lemma DefaultBlockCount(numClasses: nat, addSe: bool, activation: string)
    ensures MicroNetImagenet(numClasses, Unit, Unit, addSe, activation).Some?
    ensures |MicroNetImagenet(numClasses, Unit, Unit, addSe, activation).value.blocks| == 18
  {
    DefaultBlocks(numClasses, addSe, activation);
  }

  /** Exactly three default blocks get a projection shortcut, blocks 0, 11
      and 17: 32->16, 80->96 and 192->320. */
  lemma DefaultProjections(addSe: bool, activation: string)
    ensures var bs := BuildBlocks(DefaultLayers, addSe, activation);
            forall i :: 0 <= i < |bs| ==> (bs[i].shortcut.Projection? <==> i == 0 || i == 11 || i == 17)
    ensures var bs := BuildBlocks(DefaultLayers, addSe, activation);
            && bs[0].shortcut.conv.inCh == 32 && bs[0].shortcut.conv.outCh == 16
            && bs[11].shortcut.conv.inCh == 80 && bs[11].shortcut.conv.outCh == 96
            && bs[17].shortcut.conv.inCh == 192 && bs[17].shortcut.conv.outCh == 320
  {
    var bs := BuildBlocks(DefaultLayers, addSe, activation);
    forall i | 0 <= i < |bs|
      ensures bs[i].shortcut.Projection? <==> i == 0 || i == 11 || i == 17
    {
      var b := DefaultLayers[i];
      assert bs[i].shortcut.Projection? <==> b.stride == 1 && b.inPlanes != b.outPlanes;
    }
  }

  /** The default blocks that down-sample, blocks 2, 5, 8 and 13, are the
      ones whose squeeze-excitation gate the forward as written discards. */
  lemma DefaultGateDropped(activation: string, x: Shape)
    ensures forall i :: 0 <= i < |DefaultLayers| ==> (DefaultLayers[i].stride == 2 <==> i == 2 || i == 5 || i == 8 || i == 13)
    ensures forall i :: 0 <= i < |DefaultLayers| && DefaultLayers[i].stride == 2 && Accepts(DefaultLayers[i], x) ==>
              ForwardAsWritten(Build(DefaultLayers[i], true, activation), x) == Some(BlockOutput(OutShape(DefaultLayers[i], x), false, false))
  {
    forall i | 0 <= i < |DefaultLayers|
      ensures DefaultLayers[i].stride == 2 <==> i == 2 || i == 5 || i == 8 || i == 13
    {
    }
    forall i | 0 <= i < |DefaultLayers| && DefaultLayers[i].stride == 2 && Accepts(DefaultLayers[i], x)
      ensures ForwardAsWritten(Build(DefaultLayers[i], true, activation), x) == Some(BlockOutput(OutShape(DefaultLayers[i], x), false, false))
    {
      SeGateDroppedOnStrideTwo(DefaultLayers[i], activation, x);
    }
  }

  lemma DefaultStrideTwoStages()
    ensures StrideTwoStages(DefaultCfg) == 4
  {
  }

  /** The rescaled default table has four stride-2 stages, whatever the
      factors, so under either reading its blocks turn a 112x112 stem
      output into a 7x7 map of `int(320 * wide_factor)` channels. */
  lemma RescaledFeatureMap(wide: Factor, depth: Factor, addSe: bool, activation: string, reading: Reading)
    ensures var cfg := ChangeCfg(DefaultCfg, wide, depth);
            ForwardBlocks(BuildBlocks(Layers(cfg, InputChannel), addSe, activation), Shape(InputChannel, 112, 112), reading)
            == Some(Shape(Scale(320, wide), 7, 7))
  {
    var cfg := ChangeCfg(DefaultCfg, wide, depth);
    RescaledStrides(wide, depth);
    RescaledWidth(wide, depth);
    TableFeatureMap(cfg, addSe, activation, Shape(InputChannel, 112, 112), reading);
  }

  /** The rescaled default table keeps strides 1 and 2 only, and its four
      stride-2 stages take a 112-long axis down to 7. */
  lemma RescaledStrides(wide: Factor, depth: Factor)
    ensures SupportedStrides(ChangeCfg(DefaultCfg, wide, depth))
    ensures HalveTimes(112, StrideTwoStages(ChangeCfg(DefaultCfg, wide, depth))) == 7
  {
    DefaultStridesSupported();
    ChangeCfgKeepsStrides(DefaultCfg, wide, depth);
    ChangeCfgKeepsStrideTwoStages(DefaultCfg, wide, depth);
    DefaultStrideTwoStages();
    assert HalveTimes(112, 4) == 7;
  }

  /** The rescaled default table ends in a stage `int(320 * wide_factor)` wide. */
  lemma RescaledWidth(wide: Factor, depth: Factor)
    ensures WidthAfter(ChangeCfg(DefaultCfg, wide, depth), InputChannel) == Scale(320, wide)
  {
    var cfg := ChangeCfg(DefaultCfg, wide, depth);
    assert |cfg| == 11 && cfg[10].outPlanes == Scale(320, wide);
  }

  /** For every factor pair the network can be built with, a 224x224
      image leaves the stem as a 112x112 map and, under either reading,
      reaches the last 1x1 convolution as a 7x7 map of
      `int(320 * wide_factor)` channels. */
  lemma DefaultFeatureMap(numClasses: nat, wide: Factor, depth: Factor, addSe: bool, activation: string, reading: Reading)
    ensures var n := MicroNetImagenet(numClasses, wide, depth, addSe, activation);
            n.Some? ==> ApplyConv(n.value.stem, Shape(ImageChannels, 224, 224)) == Some(Shape(InputChannel, 112, 112))
    ensures var n := MicroNetImagenet(numClasses, wide, depth, addSe, activation);
            n.Some? ==> ForwardBlocks(n.value.blocks, Shape(InputChannel, 112, 112), reading)
                        == Some(Shape(Scale(320, wide), 7, 7))
  {
    var built := MicroNetImagenet(numClasses, wide, depth, addSe, activation);
    if built.Some? {
      var n := built.value;
      FromCfgParts(ChangeCfg(DefaultCfg, wide, depth), numClasses, addSe, activation);
      StemOutput();
      RescaledFeatureMap(wide, depth, addSe, activation, reading);
    }
  }

  /** The stem's 3x3 stride-2 convolution takes a 224x224 image to 112x112. */
  lemma StemOutput()
    ensures ApplyConv(Conv(ImageChannels, InputChannel, 3, 2, 1, 1), Shape(ImageChannels, 224, 224))
            == Some(Shape(InputChannel, 112, 112))
  {
    assert ConvOutSize(224, 3, 1, 2) == Some(112);
  }
}

=== FILE: micro_block.dfy ===
/** The structure `MicroBlock.__init__` derives from its arguments
    (expand 1x1 -> depthwise -> project 1x1, optional squeeze-excitation,
    identity or projection shortcut) and the shape flow of
    `MicroBlock.forward`, including the rule that the residual is added
    only on stride-1 blocks. */
module MicroBlocks {
  import opened Wrappers
  import opened Shapes
  import opened Blocks

  datatype Act = ReLU | HSwish

  /** `'HSwish'` selects hard-swish; every other name selects ReLU. */
  function ActivationOf(name: string): (a: Act)
    ensures a == HSwish <==> name == "HSwish"
  {
    if name == "HSwish" then HSwish else ReLU
  }

  /** An empty `nn.Sequential` (identity) or a 1x1 convolution followed by
      a batch norm of the given width. */
  datatype Shortcut = Identity | Projection(conv: Conv, norm: nat)

  /** The squeeze-excitation layers: 1x1 squeeze `fc1`, its activation, 1x1 excite `fc2`. */
  datatype SqueezeExcite = SqueezeExcite(fc1: Conv, fc2: Conv, act: Act)

  /** The layers of one block. `conv2` is absent when the stride is neither
      1 nor 2: the constructor then never assigns it. */
  datatype MicroBlock = MicroBlock(
    spec: BlockSpec,
    planes: nat,
    conv1: Conv, bn1: nat,
    conv2: Option<Conv>, bn2: nat,
    conv3: Conv, bn3: nat,
    act: Act,
    shortcut: Shortcut,
    se: Option<SqueezeExcite>)

  /** The depthwise convolution for a stride: 3x3 with padding 1 at stride 1,
      5x5 with padding 2 at stride 2, none otherwise. */
  function DepthwiseConv(planes: nat, stride: nat): (r: Option<Conv>)
    ensures r.Some? <==> stride == 1 || stride == 2
    ensures r.Some? ==> && r.value.inCh == planes && r.value.outCh == planes
                        && r.value.groups == planes && r.value.stride == stride
                        && r.value.kernel == 2 * stride + 1 && r.value.padding == stride
  {
    if stride == 1 then Some(Conv(planes, planes, 3, 1, 1, planes))
    else if stride == 2 then Some(Conv(planes, planes, 5, 2, 2, planes))
    else None
  }

  /** `int(out_planes * 0.25)`: the squeeze width, a quarter of the block width rounded down. */
  function SqueezeWidth(outPlanes: nat): (r: nat)
    ensures 4 * r <= outPlanes < 4 * r + 4
  {
    outPlanes / 4
  }

  function Pointwise(inCh: nat, outCh: nat): Conv {
    Conv(inCh, outCh, 1, 1, 0, 1)
  }

  /** Channel counts agree along every edge of the block's layer graph. */
  predicate Wired(m: MicroBlock) {
    && m.conv1.inCh == m.spec.inPlanes
    && m.conv1.outCh == m.planes && m.bn1 == m.planes
    && (m.conv2.Some? ==> m.conv2.value.inCh == m.planes && m.conv2.value.outCh == m.planes
                          && m.conv2.value.groups == m.planes)
    && m.bn2 == m.planes
    && m.conv3.inCh == m.planes
    && m.conv3.outCh == m.spec.outPlanes && m.bn3 == m.spec.outPlanes
    && (m.shortcut.Projection? ==> m.shortcut.conv.inCh == m.spec.inPlanes
                                   && m.shortcut.conv.outCh == m.spec.outPlanes
                                   && m.shortcut.norm == m.spec.outPlanes)
    && (m.se.Some? ==> m.se.value.fc1.inCh == m.spec.outPlanes
                       && m.se.value.fc1.outCh == m.se.value.fc2.inCh
                       && m.se.value.fc2.outCh == m.spec.outPlanes)
  }

  /** `MicroBlock.__init__`. */
  function Build(b: BlockSpec, addSe: bool, activation: string): (m: MicroBlock)
    ensures m.spec == b
    ensures m.planes == b.expansion * b.inPlanes
    ensures m.conv2 == DepthwiseConv(m.planes, b.stride)
    ensures m.conv2.Some? <==> b.stride == 1 || b.stride == 2
    ensures m.conv2.Some? ==> m.conv2.value.stride == b.stride
    ensures m.shortcut.Projection? <==> b.stride == 1 && b.inPlanes != b.outPlanes
    ensures m.se.Some? <==> addSe
    ensures m.se.Some? ==> 4 * m.se.value.fc1.outCh <= b.outPlanes < 4 * m.se.value.fc1.outCh + 4
    ensures m.act == ActivationOf(activation)
    ensures Wired(m)
  {
    var planes := b.expansion * b.inPlanes;
    var act := ActivationOf(activation);
    MicroBlock(
      b, planes,
      Pointwise(b.inPlanes, planes), planes,
      DepthwiseConv(planes, b.stride), planes,
      Pointwise(planes, b.outPlanes), b.outPlanes,
      act,
      if b.stride == 1 && b.inPlanes != b.outPlanes
      then Projection(Pointwise(b.inPlanes, b.outPlanes), b.outPlanes)
      else Identity,
      if addSe
      then var number := SqueezeWidth(b.outPlanes);
           Some(SqueezeExcite(Pointwise(b.outPlanes, number), Pointwise(number, b.outPlanes), act))
      else None)
  }

  /** `reset_parameters` draws every convolution's weights with standard
      deviation `sqrt(2 / n)`, n = kernel * kernel * out_channels, so a
      convolution with no output channels raises `ZeroDivisionError`. */
  predicate ConvInitialisable(c: Conv) {
    c.kernel * c.kernel * c.outCh != 0
  }

  /** Every convolution of the block survives `reset_parameters`. */
  predicate Initialisable(m: MicroBlock) {
    && ConvInitialisable(m.conv1)
    && (m.conv2.Some? ==> ConvInitialisable(m.conv2.value))
    && ConvInitialisable(m.conv3)
    && (m.shortcut.Projection? ==> ConvInitialisable(m.shortcut.conv))
    && (m.se.Some? ==> ConvInitialisable(m.se.value.fc1) && ConvInitialisable(m.se.value.fc2))
  }

  /** The arguments for which a block survives `reset_parameters`: a
      non-zero hidden width, a non-zero output width and, with
      squeeze-excitation, a non-zero squeeze width (out_planes >= 4). */
  predicate SpecInitialisable(b: BlockSpec, addSe: bool) {
    && b.expansion * b.inPlanes != 0
    && b.outPlanes != 0
    && (addSe ==> b.outPlanes >= 4)
  }

  lemma BuildInitialisable(b: BlockSpec, addSe: bool, activation: string)
    ensures Initialisable(Build(b, addSe, activation)) <==> SpecInitialisable(b, addSe)
  {
    var m := Build(b, addSe, activation);
    assert ConvInitialisable(m.conv1) <==> m.planes != 0;
    assert ConvInitialisable(m.conv3) <==> b.outPlanes != 0;
    if addSe {
      assert ConvInitialisable(m.se.value.fc1) <==> b.outPlanes >= 4;
    }
  }

  /** Channels the shortcut yields from a block input of `spec.inPlanes` channels. */
  function ShortcutChannels(m: MicroBlock): nat {
    match m.shortcut
    case Identity => m.spec.inPlanes
    case Projection(c, _) => c.outCh
  }

  /** Whenever the residual is added (stride 1), the shortcut yields exactly
      `out_planes` channels; a projection is built only when the identity
      would not. */
  lemma ShortcutMatchesOutput(b: BlockSpec, addSe: bool, activation: string)
    ensures var m := Build(b, addSe, activation);
            b.stride == 1 ==> ShortcutChannels(m) == b.outPlanes
    ensures var m := Build(b, addSe, activation);
            m.shortcut.Projection? ==> b.inPlanes != b.outPlanes
  {
  }

  /** The main branch of the block: conv1, bn1, act1, conv2, bn2,
      act2, conv3, bn3. Activations keep the shape. */
  function MainBranch(m: MicroBlock, x: Shape): Option<Shape> {
    var a :- ApplyConv(m.conv1, x);
    var a :- Norm(m.bn1, a);
    var dw :- m.conv2;
    var b :- ApplyConv(dw, a);
    var b :- Norm(m.bn2, b);
    var c :- ApplyConv(m.conv3, b);
    Norm(m.bn3, c)
  }

  /** `avg_se`, `fc1`, `act_se`, `fc2`, sigmoid: the per-channel gate. */
  function Gate(se: SqueezeExcite, out: Shape): Option<Shape> {
    var g :- ApplyConv(se.fc1, Pool(out));
    ApplyConv(se.fc2, g)
  }

  function ApplyShortcut(m: MicroBlock, x: Shape): Option<Shape> {
    match m.shortcut
    case Identity => Some(x)
    case Projection(c, n) =>
      var y :- ApplyConv(c, x);
      Norm(n, y)
  }

  /** What a block returns: its shape, and whether the squeeze-excitation
      gate and the residual were applied to it. */
  datatype BlockOutput = BlockOutput(shape: Shape, gated: bool, residual: bool)

  /** `MicroBlock.forward` as written. On the squeeze-excitation path the
      conditional expression binds looser than `*` and `+`, so a stride-2
      block computes the gate and then returns the ungated branch. */
  function ForwardAsWritten(m: MicroBlock, x: Shape): (r: Option<BlockOutput>)
    ensures r.Some? ==> (r.value.residual <==> m.spec.stride == 1)
    ensures r.Some? ==> (r.value.gated <==> m.se.Some? && m.spec.stride == 1)
  {
    var out :- MainBranch(m, x);
    match m.se
    case Some(se) =>
      var g :- Gate(se, out);
      if m.spec.stride == 1 then
        var gated :- Broadcast(out, g);
        var sc :- ApplyShortcut(m, x);
        var sum :- Broadcast(gated, sc);
        Some(BlockOutput(sum, true, true))
      else Some(BlockOutput(out, false, false))
    case None =>
      if m.spec.stride == 1 then
        var sc :- ApplyShortcut(m, x);
        var sum :- Broadcast(out, sc);
        Some(BlockOutput(sum, false, true))
      else Some(BlockOutput(out, false, false))
  }

  /** `MicroBlock.forward` with the gate applied on every squeeze-excitation
      block, and the residual added only on stride-1 blocks. */
  function Forward(m: MicroBlock, x: Shape): (r: Option<BlockOutput>)
    ensures r.Some? ==> (r.value.residual <==> m.spec.stride == 1)
    ensures r.Some? ==> (r.value.gated <==> m.se.Some?)
  {
    var out :- MainBranch(m, x);
    var excited :- match m.se
                   case Some(se) => var g :- Gate(se, out); Broadcast(out, g)
                   case None => Some(out);
    if m.spec.stride == 1 then
      var sc :- ApplyShortcut(m, x);
      var sum :- Broadcast(excited, sc);
      Some(BlockOutput(sum, m.se.Some?, true))
    else Some(BlockOutput(excited, m.se.Some?, false))
  }

  /** The two readings of `forward`: the code as written, and the
      intended one that gates every squeeze-excitation block. */
  datatype Reading = AsWritten | Intended

  function Run(m: MicroBlock, x: Shape, reading: Reading): Option<BlockOutput> {
    match reading
    case AsWritten => ForwardAsWritten(m, x)
    case Intended => Forward(m, x)
  }

  /** The input a block accepts: `in_planes` channels and a non-empty map. */
  predicate Accepts(b: BlockSpec, x: Shape) {
    x.channels == b.inPlanes && x.height >= 1 && x.width >= 1
  }

  /** The shape a supported block yields: `out_planes` channels, each
      spatial axis divided by the stride, rounded up. */
  function OutShape(b: BlockSpec, x: Shape): Shape
    requires b.stride == 1 || b.stride == 2
  {
    Shape(b.outPlanes, CeilDiv(x.height, b.stride), CeilDiv(x.width, b.stride))
  }

  /** The main branch maps an accepted input to `OutShape`. */
  lemma MainBranchShape(b: BlockSpec, addSe: bool, activation: string, x: Shape)
    requires b.stride == 1 || b.stride == 2
    requires Accepts(b, x)
    ensures MainBranch(Build(b, addSe, activation), x) == Some(OutShape(b, x))
  {
    var m := Build(b, addSe, activation);
    PointwiseOutSize(x.height);
    PointwiseOutSize(x.width);
    var a := Shape(m.planes, x.height, x.width);
    assert ApplyConv(m.conv1, x) == Some(a);
    DepthwiseOutSize(x.height, b.stride);
    DepthwiseOutSize(x.width, b.stride);
    var d := Shape(m.planes, CeilDiv(x.height, b.stride), CeilDiv(x.width, b.stride));
    assert ApplyConv(m.conv2.value, a) == Some(d);
    PointwiseOutSize(d.height);
    PointwiseOutSize(d.width);
    assert ApplyConv(m.conv3, d) == Some(OutShape(b, x));
  }

  /** The gate has `out_planes` channels over a 1x1 map, matching the
      tensor it scales. */
  lemma GateShape(b: BlockSpec, activation: string, out: Shape)
    requires out.channels == b.outPlanes
    ensures var m := Build(b, true, activation);
            Gate(m.se.value, out) == Some(Shape(b.outPlanes, 1, 1))
  {
  }

  /** Both operands of the residual add have the block's output shape, so
      the add needs no broadcasting. */
  lemma ResidualWellShaped(b: BlockSpec, addSe: bool, activation: string, x: Shape)
    requires b.stride == 1
    requires Accepts(b, x)
    ensures MainBranch(Build(b, addSe, activation), x) == Some(Shape(b.outPlanes, x.height, x.width))
    ensures ApplyShortcut(Build(b, addSe, activation), x) == Some(Shape(b.outPlanes, x.height, x.width))
  {
    MainBranchShape(b, addSe, activation, x);
    PointwiseOutSize(x.height);
    PointwiseOutSize(x.width);
  }

  /** A block runs on an input exactly when its stride is 1 or 2 and the
      input is accepted, and then yields `OutShape`. */
  lemma {:induction false} ForwardShape(b: BlockSpec, addSe: bool, activation: string, x: Shape)
    ensures var r := Forward(Build(b, addSe, activation), x);
            r.Some? <==> (b.stride == 1 || b.stride == 2) && Accepts(b, x)
    ensures var r := Forward(Build(b, addSe, activation), x);
            r.Some? ==> r.value.shape == OutShape(b, x)
  {
    var m := Build(b, addSe, activation);
    if (b.stride == 1 || b.stride == 2) && Accepts(b, x) {
      MainBranchShape(b, addSe, activation, x);
      var out := OutShape(b, x);
      BroadcastSame(out);
      if addSe {
        GateShape(b, activation, out);
      }
      if b.stride == 1 {
        ResidualWellShaped(b, addSe, activation, x);
      }
    } else if !(b.stride == 1 || b.stride == 2) {
      assert m.conv2.None?;
    } else {
      assert ApplyConv(m.conv1, x).None?;
    }
  }

  /** As written, a stride-2 block with squeeze-excitation returns its
      ungated main branch; the corrected forward applies the gate. */
  lemma SeGateDroppedOnStrideTwo(b: BlockSpec, activation: string, x: Shape)
    requires b.stride == 2
    requires Accepts(b, x)
    ensures ForwardAsWritten(Build(b, true, activation), x) == Some(BlockOutput(OutShape(b, x), false, false))
    ensures Forward(Build(b, true, activation), x) == Some(BlockOutput(OutShape(b, x), true, false))
  {
    MainBranchShape(b, true, activation, x);
    GateShape(b, activation, OutShape(b, x));
    BroadcastSame(OutShape(b, x));
  }

  /** The two readings of `forward` differ in nothing but the gate: they
      fail on the same inputs, yield the same shape and add the residual
      on the same blocks; they disagree on `gated` exactly on stride-2
      squeeze-excitation blocks. */
  lemma {:induction false} AsWrittenDiffersOnlyInGate(b: BlockSpec, addSe: bool, activation: string, x: Shape)
    ensures var w := ForwardAsWritten(Build(b, addSe, activation), x);
            var f := Forward(Build(b, addSe, activation), x);
            && (w.Some? <==> f.Some?)
            && (w.Some? ==> w.value.shape == f.value.shape && w.value.residual == f.value.residual)
            && (w.Some? ==> (w.value.gated != f.value.gated <==> addSe && b.stride == 2))
  {
    var m := Build(b, addSe, activation);
    ForwardShape(b, addSe, activation, x);
    if (b.stride == 1 || b.stride == 2) && Accepts(b, x) {
      MainBranchShape(b, addSe, activation, x);
      var out := OutShape(b, x);
      BroadcastSame(out);
      if addSe {
        GateShape(b, activation, out);
      }
      if b.stride == 1 {
        ResidualWellShaped(b, addSe, activation, x);
      }
    } else if !(b.stride == 1 || b.stride == 2) {
      assert m.conv2.None?;
    } else {
      assert ApplyConv(m.conv1, x).None?;
    }
  }

  /** Under either reading a block runs exactly when its stride is 1 or 2
      and the input is accepted, and then yields `OutShape`. */
  lemma RunShape(b: BlockSpec, addSe: bool, activation: string, x: Shape, reading: Reading)
    ensures var r := Run(Build(b, addSe, activation), x, reading);
            r.Some? <==> (b.stride == 1 || b.stride == 2) && Accepts(b, x)
    ensures var r := Run(Build(b, addSe, activation), x, reading);
            r.Some? ==> r.value.shape == OutShape(b, x)
  {
    ForwardShape(b, addSe, activation, x);
    AsWrittenDiffersOnlyInGate(b, addSe, activation, x);
  }
}

=== FILE: micro_net.dfy ===
/** `MicroNet_imagenet`: stem convolution, the blocks `_make_layers`
    expands from the (rescaled) stage table, the last 1x1 convolution,
    pooling and the classifier, and the shape flow of `forward`. */
module MicroNet {
  import opened Wrappers
  import opened StageConfig
  import opened Shapes
  import opened Blocks
  import opened MicroBlocks

  const ImageChannels: nat := 3
  /** `input_channel`, the stem width. */
  const InputChannel: nat := 32
  /** `last_channel`, the width of the last 1x1 convolution. */
  const LastChannel: nat := 640

  datatype Network = Network(
    cfg: seq<StageCfg>,
    stem: Conv, stemNorm: nat, stemAct: Act,
    blocks: seq<MicroBlock>,
    lastConv: Conv,
    linearIn: nat, numClasses: nat)

  /** Every block built with the same squeeze-excitation flag and activation. */
  function BuildBlocks(specs: seq<BlockSpec>, addSe: bool, activation: string): (r: seq<MicroBlock>)
    ensures |r| == |specs|
    ensures forall i :: 0 <= i < |specs| ==> r[i] == Build(specs[i], addSe, activation)
  {
    if |specs| == 0 then []
    else [Build(specs[0], addSe, activation)] + BuildBlocks(specs[1..], addSe, activation)
  }

  /** A row whose blocks survive `reset_parameters`: a non-zero expansion
      and width, and a width of at least 4 when the squeeze width
      `int(out_planes * 0.25)` must be non-zero. */
  predicate RowInitialisable(s: StageCfg, addSe: bool) {
    s.expansion != 0 && s.outPlanes != 0 && (addSe ==> s.outPlanes >= 4)
  }

  /** Every block survives `reset_parameters`. */
  predicate BlocksInitialisable(blocks: seq<MicroBlock>) {
    forall i :: 0 <= i < |blocks| ==> Initialisable(blocks[i])
  }

  predicate SpecsInitialisable(specs: seq<BlockSpec>, addSe: bool) {
    forall i :: 0 <= i < |specs| ==> SpecInitialisable(specs[i], addSe)
  }

  predicate RowsInitialisable(cfg: seq<StageCfg>, addSe: bool) {
    forall j :: 0 <= j < |cfg| ==> RowInitialisable(cfg[j], addSe)
  }

  lemma SpecsInitialisableAppend(a: seq<BlockSpec>, b: seq<BlockSpec>, addSe: bool)
    ensures SpecsInitialisable(a + b, addSe) <==> SpecsInitialisable(a, addSe) && SpecsInitialisable(b, addSe)
  {
    assert forall i :: 0 <= i < |a| ==> a[i] == (a + b)[i];
    assert forall i :: 0 <= i < |b| ==> b[i] == (a + b)[|a| + i];
    if SpecsInitialisable(a, addSe) && SpecsInitialisable(b, addSe) {
      forall i | 0 <= i < |a + b|
        ensures SpecInitialisable((a + b)[i], addSe)
      {
        if i >= |a| {
          assert (a + b)[i] == b[i - |a|];
        }
      }
    }
  }

  /** From a non-empty input width, a stage's blocks survive
      `reset_parameters` exactly when its row does. */
  lemma StageInitialisable(inPlanes: nat, s: StageCfg, addSe: bool)
    requires inPlanes != 0
    ensures SpecsInitialisable(StageBlocks(inPlanes, s, StageStrides(s)), addSe) <==> RowInitialisable(s, addSe)
  {
    var head := StageBlocks(inPlanes, s, StageStrides(s));
    assert SpecInitialisable(head[0], addSe) <==> RowInitialisable(s, addSe);
  }

  /** From a non-empty input width, every block of the expansion survives
      `reset_parameters` exactly when every row of the table does. */
  lemma {:induction false} LayersInitialisable(cfg: seq<StageCfg>, inPlanes: nat, addSe: bool)
    requires inPlanes != 0
    ensures SpecsInitialisable(Layers(cfg, inPlanes), addSe) <==> RowsInitialisable(cfg, addSe)
  {
    if |cfg| > 0 {
      var s := cfg[0];
      var head := StageBlocks(inPlanes, s, StageStrides(s));
      var tail := Layers(cfg[1..], s.outPlanes);
      SpecsInitialisableAppend(head, tail, addSe);
      StageInitialisable(inPlanes, s, addSe);
      if RowInitialisable(s, addSe) {
        LayersInitialisable(cfg[1..], s.outPlanes, addSe);
        assert RowsInitialisable(cfg, addSe) <==> RowsInitialisable(cfg[1..], addSe) by {
          if RowsInitialisable(cfg[1..], addSe) {
            forall j | 0 < j < |cfg|
              ensures RowInitialisable(cfg[j], addSe)
            {
              assert cfg[j] == cfg[1..][j - 1];
            }
          }
        }
      }
    }
  }

  /** A list of blocks built from specs survives `reset_parameters`
      exactly when each spec does. */
  lemma BuildBlocksInitialisable(specs: seq<BlockSpec>, addSe: bool, activation: string)
    ensures BlocksInitialisable(BuildBlocks(specs, addSe, activation)) <==> SpecsInitialisable(specs, addSe)
  {
    forall i | 0 <= i < |specs| {
      BuildInitialisable(specs[i], addSe, activation);
    }
  }

  /** The network for a given stage table. An empty table has no `cfg[-1]`,
      and a zero-width convolution makes `reset_parameters` divide by zero;
      in both cases the constructor raises. */
  function FromCfg(cfg: seq<StageCfg>, numClasses: nat, addSe: bool, activation: string): (r: Option<Network>)
    ensures r.Some? <==> |cfg| > 0 && RowsInitialisable(cfg, addSe)
    ensures r.Some? ==> |r.value.blocks| == TotalBlocks(cfg)
    ensures r.Some? ==> forall i :: 0 <= i < |r.value.blocks| ==>
              && r.value.blocks[i] == Build(Layers(cfg, InputChannel)[i], addSe, activation)
              && r.value.blocks[i].act == r.value.stemAct
    ensures r.Some? ==> r.value.stem.outCh == InputChannel == r.value.blocks[0].spec.inPlanes
    ensures r.Some? ==> r.value.lastConv.inCh == r.value.blocks[|r.value.blocks| - 1].spec.outPlanes
    ensures r.Some? ==> r.value.lastConv.outCh == LastChannel == r.value.linearIn
  {
    var blocks := BuildBlocks(Layers(cfg, InputChannel), addSe, activation);
    BuildBlocksInitialisable(Layers(cfg, InputChannel), addSe, activation);
    LayersInitialisable(cfg, InputChannel, addSe);
    if |cfg| == 0 then None
    else if !BlocksInitialisable(blocks) then None
    else
      Some(Network(
        cfg,
        Conv(ImageChannels, InputChannel, 3, 2, 1, 1), InputChannel, ActivationOf(activation),
        blocks,
        Conv(cfg[|cfg| - 1].outPlanes, LastChannel, 1, 1, 0, 1),
        LastChannel, numClasses))
  }

  /** The built network's stem and blocks, as whole values. */
  lemma FromCfgParts(cfg: seq<StageCfg>, numClasses: nat, addSe: bool, activation: string)
    ensures var r := FromCfg(cfg, numClasses, addSe, activation);
            r.Some? ==> && r.value.blocks == BuildBlocks(Layers(cfg, InputChannel), addSe, activation)
                        && r.value.stem == Conv(ImageChannels, InputChannel, 3, 2, 1, 1)
                        && r.value.cfg == cfg
  {
  }

  /** `MicroNet_imagenet(num_classes, wide_factor, depth_factor, add_se, Activation)`. */
  function MicroNetImagenet(numClasses: nat, wide: Factor, depth: Factor, addSe: bool, activation: string): (r: Option<Network>)
    ensures r.Some? ==> r.value.cfg == ChangeCfg(DefaultCfg, wide, depth)
    ensures r.Some? ==> |r.value.blocks| == TotalBlocks(r.value.cfg) >= |DefaultCfg|
    ensures r.Some? ==> r.value.numClasses == numClasses
  {
    var cfg := ChangeCfg(DefaultCfg, wide, depth);
    TotalBlocksAtLeastStages(cfg);
    FromCfg(cfg, numClasses, addSe, activation)
  }

  /** The network can be built exactly when the narrowest stage, 16 wide
      before rescaling, keeps at least one channel, or four with
      squeeze-excitation. */
  lemma MicroNetImagenetBuilds(numClasses: nat, wide: Factor, depth: Factor, addSe: bool, activation: string)
    ensures MicroNetImagenet(numClasses, wide, depth, addSe, activation).Some?
            <==> Scale(16, wide) >= (if addSe then 4 else 1)
  {
    var cfg := ChangeCfg(DefaultCfg, wide, depth);
    var least := if addSe then 4 else 1;
    assert RowInitialisable(cfg[0], addSe) <==> Scale(16, wide) >= least;
    if Scale(16, wide) >= least {
      forall j | 0 <= j < |cfg|
        ensures RowInitialisable(cfg[j], addSe)
      {
        assert DefaultCfg[j].outPlanes >= 16 && DefaultCfg[j].expansion != 0;
        ScaleMonotone(16, DefaultCfg[j].outPlanes, wide);
      }
    }
  }

  /** With the default factors (1, 1) the network can always be built. */
  lemma DefaultBuilds(numClasses: nat, addSe: bool, activation: string)
    ensures MicroNetImagenet(numClasses, Unit, Unit, addSe, activation).Some?
  {
    MicroNetImagenetBuilds(numClasses, Unit, Unit, addSe, activation);
    ScaleUnit(16);
  }

  /** Every stage yields at least one block. */
  lemma {:induction false} TotalBlocksAtLeastStages(cfg: seq<StageCfg>)
    ensures TotalBlocks(cfg) >= |cfg|
  {
    if |cfg| > 0 {
      TotalBlocksAtLeastStages(cfg[1..]);
    }
  }

  /** `nn.Sequential` over the blocks, under one reading of the block forward. */
  function ForwardBlocks(blocks: seq<MicroBlock>, x: Shape, reading: Reading): Option<Shape>
  {
    if |blocks| == 0 then Some(x)
    else
      var o :- Run(blocks[0], x, reading);
      ForwardBlocks(blocks[1..], o.shape, reading)
  }

  /** `MicroNet_imagenet.forward`: the number of logits per sample. */
  function NetForward(n: Network, x: Shape, reading: Reading): Option<nat> {
    var s :- ApplyConv(n.stem, x);
    var s :- Norm(n.stemNorm, s);
    var s :- ForwardBlocks(n.blocks, s, reading);
    var s :- ApplyConv(n.lastConv, s);
    var p := Pool(s);
    if p.channels * p.height * p.width == n.linearIn then Some(n.numClasses) else None
  }

  /** Every block has a stride the block constructor knows (1 or 2). */
  predicate BlockStridesSupported(specs: seq<BlockSpec>) {
    forall i :: 0 <= i < |specs| ==> specs[i].stride == 1 || specs[i].stride == 2
  }

  /** Spatial length after the blocks: each divides by its stride, rounding up. */
  function SpatialAfter(specs: seq<BlockSpec>, n: nat): nat
    requires BlockStridesSupported(specs)
  {
    if |specs| == 0 then n
    else SpatialAfter(specs[1..], CeilDiv(n, specs[0].stride))
  }

  /** Channels after the blocks. */
  function ChannelsAfter(specs: seq<BlockSpec>, c: nat): nat {
    if |specs| == 0 then c else specs[|specs| - 1].outPlanes
  }

  /** Under either reading of the block forward, a chained list of
      supported blocks runs on every non-empty input of the first block's
      width and yields the last block's width. */
  lemma {:induction false} ForwardBlocksShape(specs: seq<BlockSpec>, addSe: bool, activation: string, x: Shape, reading: Reading)
    requires BlockStridesSupported(specs)
    requires Chained(specs, x.channels)
    requires x.height >= 1 && x.width >= 1
    ensures ForwardBlocks(BuildBlocks(specs, addSe, activation), x, reading)
            == Some(Shape(ChannelsAfter(specs, x.channels), SpatialAfter(specs, x.height), SpatialAfter(specs, x.width)))
    ensures SpatialAfter(specs, x.height) >= 1 && SpatialAfter(specs, x.width) >= 1
  {
    if |specs| > 0 {
      var blocks := BuildBlocks(specs, addSe, activation);
      RunShape(specs[0], addSe, activation, x, reading);
      var y := OutShape(specs[0], x);
      DepthwiseOutSize(x.height, specs[0].stride);
      DepthwiseOutSize(x.width, specs[0].stride);
      assert blocks[1..] == BuildBlocks(specs[1..], addSe, activation);
      ForwardBlocksShape(specs[1..], addSe, activation, y, reading);
      assert |specs| > 1 ==> specs[1..][|specs[1..]| - 1] == specs[|specs| - 1];
    }
  }

  /** A table whose strides are all 1 or 2 expands into blocks whose
      strides are all 1 or 2. */
  lemma {:induction false} LayersStridesSupported(cfg: seq<StageCfg>, inPlanes: nat)
    requires SupportedStrides(cfg)
    ensures BlockStridesSupported(Layers(cfg, inPlanes))
  {
    if |cfg| > 0 {
      LayersStridesSupported(cfg[1..], cfg[0].outPlanes);
    }
  }

  /** Whenever the network can be built, and under either reading of the
      block forward, it accepts exactly the non-empty 3-channel images and
      then yields `num_classes` logits. */
  lemma NetForwardShape(numClasses: nat, wide: Factor, depth: Factor, addSe: bool, activation: string, x: Shape, reading: Reading)
    ensures var n := MicroNetImagenet(numClasses, wide, depth, addSe, activation);
            n.Some? ==> (NetForward(n.value, x, reading).Some?
                         <==> x.channels == ImageChannels && x.height >= 1 && x.width >= 1)
    ensures var n := MicroNetImagenet(numClasses, wide, depth, addSe, activation);
            n.Some? && NetForward(n.value, x, reading).Some? ==> NetForward(n.value, x, reading).value == numClasses
  {
    var built := MicroNetImagenet(numClasses, wide, depth, addSe, activation);
    if built.Some? && x.channels == ImageChannels && x.height >= 1 && x.width >= 1 {
      var n := built.value;
      var cfg := n.cfg;
      var specs := Layers(cfg, InputChannel);
      assert n.blocks == BuildBlocks(specs, addSe, activation);
      DefaultStridesSupported();
      ChangeCfgKeepsStrides(DefaultCfg, wide, depth);
      LayersStridesSupported(cfg, InputChannel);
      var s := ApplyConv(n.stem, x).value;
      assert s.channels == InputChannel;
      ForwardBlocksShape(specs, addSe, activation, s, reading);
      var t := Shape(ChannelsAfter(specs, InputChannel), SpatialAfter(specs, s.height), SpatialAfter(specs, s.width));
      assert ForwardBlocks(n.blocks, s, reading) == Some(t);
      PointwiseOutSize(t.height);
      PointwiseOutSize(t.width);
    }
  }

  /** Under either reading, the blocks of a table with supported strides
      turn a non-empty map of the input width into a map of the last
      stage's width, halved (rounding up) once per stride-2 stage. */
  lemma TableFeatureMap(cfg: seq<StageCfg>, addSe: bool, activation: string, x: Shape, reading: Reading)
    requires SupportedStrides(cfg)
    requires x.height >= 1 && x.width >= 1
    ensures ForwardBlocks(BuildBlocks(Layers(cfg, x.channels), addSe, activation), x, reading)
            == Some(Shape(WidthAfter(cfg, x.channels),
                          HalveTimes(x.height, StrideTwoStages(cfg)),
                          HalveTimes(x.width, StrideTwoStages(cfg))))
  {
    var specs := Layers(cfg, x.channels);
    LayersStridesSupported(cfg, x.channels);
    ForwardBlocksShape(specs, addSe, activation, x, reading);
    LayersStrideTwoCount(cfg, x.channels);
    SpatialAfterHalves(specs, x.height);
    SpatialAfterHalves(specs, x.width);
  }

  /** Number of stride-2 (down-sampling) blocks. */
  function StrideTwoCount(specs: seq<BlockSpec>): nat {
    if |specs| == 0 then 0
    else (if specs[0].stride == 2 then 1 else 0) + StrideTwoCount(specs[1..])
  }

  /** Number of stride-2 stages of a table. */
  function StrideTwoStages(cfg: seq<StageCfg>): nat {
    if |cfg| == 0 then 0
    else (if cfg[0].stride == 2 then 1 else 0) + StrideTwoStages(cfg[1..])
  }

  /** n halved k times, rounding up each time. */
  function HalveTimes(n: nat, k: nat): nat {
    if k == 0 then n else HalveTimes(CeilDiv(n, 2), k - 1)
  }

  lemma {:induction false} StrideTwoCountAppend(a: seq<BlockSpec>, b: seq<BlockSpec>)
    ensures StrideTwoCount(a + b) == StrideTwoCount(a) + StrideTwoCount(b)
  {
    if |a| > 0 {
      assert (a + b)[1..] == a[1..] + b;
      StrideTwoCountAppend(a[1..], b);
    } else {
      assert a + b == b;
    }
  }

  lemma {:induction false} StrideOneOnly(specs: seq<BlockSpec>)
    requires forall i :: 0 <= i < |specs| ==> specs[i].stride == 1
    ensures StrideTwoCount(specs) == 0
  {
    if |specs| > 0 {
      StrideOneOnly(specs[1..]);
    }
  }

  /** Whatever its depth, a stage down-samples at most once: only its first
      block can carry stride 2, so the expansion has one stride-2 block per
      stride-2 stage. */
  lemma {:induction false} LayersStrideTwoCount(cfg: seq<StageCfg>, inPlanes: nat)
    ensures StrideTwoCount(Layers(cfg, inPlanes)) == StrideTwoStages(cfg)
  {
    if |cfg| > 0 {
      var s := cfg[0];
      var head := StageBlocks(inPlanes, s, StageStrides(s));
      StrideTwoCountAppend(head, Layers(cfg[1..], s.outPlanes));
      StrideOneOnly(head[1..]);
      assert StrideTwoCount(head) == (if s.stride == 2 then 1 else 0) + StrideTwoCount(head[1..]);
      LayersStrideTwoCount(cfg[1..], s.outPlanes);
    }
  }

  /** Stride-1 blocks keep the spatial size, so only the stride-2 blocks
      shrink it. */
  lemma {:induction false} SpatialAfterHalves(specs: seq<BlockSpec>, n: nat)
    requires BlockStridesSupported(specs)
    ensures SpatialAfter(specs, n) == HalveTimes(n, StrideTwoCount(specs))
  {
    if |specs| > 0 {
      SpatialAfterHalves(specs[1..], CeilDiv(n, specs[0].stride));
    }
  }

  /** Rescaling keeps the number of stride-2 stages. */
  lemma {:induction false} ChangeCfgKeepsStrideTwoStages(cfg: seq<StageCfg>, wide: Factor, depth: Factor)
    ensures StrideTwoStages(ChangeCfg(cfg, wide, depth)) == StrideTwoStages(cfg)
  {
    if |cfg| > 0 {
      ChangeCfgKeepsStrideTwoStages(cfg[1..], wide, depth);
      assert ChangeCfg(cfg, wide, depth)[1..] == ChangeCfg(cfg[1..], wide, depth);
    }
  }
}

=== FILE: shapes.dfy ===
/** Per-sample tensor shapes and the shape rules of the layers the network
    uses: 2-D convolution (dilation 1), batch normalisation, adaptive
    average pooling to 1x1 and element-wise broadcasting. The batch
    dimension is the same everywhere and is left implicit. */
module Shapes {
  import opened Wrappers
  import opened StageConfig

  datatype Shape = Shape(channels: nat, height: nat, width: nat)

  /** A convolution's hyper-parameters. */
  datatype Conv = Conv(inCh: nat, outCh: nat, kernel: nat, stride: Pos, padding: nat, groups: nat)

  /** Output length of a convolution along one axis, `(n + 2p - k) / s + 1`
      floored; undefined when the padded input is shorter than the kernel.
      The result counts the kernel placements at stride s that fit. */
  function ConvOutSize(n: nat, kernel: nat, padding: nat, stride: Pos): (r: Option<nat>)
    ensures r.Some? <==> kernel <= n + 2 * padding
    ensures r.Some? ==> r.value >= 1
    ensures r.Some? ==> (r.value - 1) * stride + kernel <= n + 2 * padding < r.value * stride + kernel
  {
    if n + 2 * padding < kernel then None
    else Some((n + 2 * padding - kernel) / stride + 1)
  }

  /** A convolution accepts exactly `inCh` input channels and yields `outCh`. */
  function ApplyConv(c: Conv, x: Shape): (r: Option<Shape>)
    ensures r.Some? ==> x.channels == c.inCh && r.value.channels == c.outCh
    ensures x.channels == c.inCh && x.height >= 1 && x.width >= 1 && c.kernel <= 2 * c.padding + 1
            ==> r.Some?
  {
    if x.channels != c.inCh then None
    else
      var h :- ConvOutSize(x.height, c.kernel, c.padding, c.stride);
      var w :- ConvOutSize(x.width, c.kernel, c.padding, c.stride);
      Some(Shape(c.outCh, h, w))
  }

  /** `BatchNorm2d(ch)` accepts only `ch` channels and keeps the shape. */
  function Norm(ch: nat, x: Shape): (r: Option<Shape>)
    ensures r.Some? <==> x.channels == ch
    ensures r.Some? ==> r.value == x
  {
    if x.channels == ch then Some(x) else None
  }

  /** `AdaptiveAvgPool2d(1)`. */
  function Pool(x: Shape): (r: Shape)
    ensures r.channels == x.channels && r.height == 1 && r.width == 1
  {
    Shape(x.channels, 1, 1)
  }

  /** Broadcasting of one axis: equal lengths, or one of them is 1. */
  function BroadcastDim(a: nat, b: nat): (r: Option<nat>)
    ensures r.Some? <==> a == b || a == 1 || b == 1
    ensures r.Some? ==> (r.value == a || r.value == b) && (a == 1 || r.value == a) && (b == 1 || r.value == b)
  {
    if a == b then Some(a)
    else if a == 1 then Some(b)
    else if b == 1 then Some(a)
    else None
  }

  /** Shape of an element-wise `a + b` or `a * b`. */
  function Broadcast(a: Shape, b: Shape): Option<Shape> {
    var c :- BroadcastDim(a.channels, b.channels);
    var h :- BroadcastDim(a.height, b.height);
    var w :- BroadcastDim(a.width, b.width);
    Some(Shape(c, h, w))
  }

  /** Operands of the same shape combine without broadcasting, and a
      per-channel 1x1 gate scales a map of the same width without changing it. */
  lemma BroadcastSame(a: Shape)
    ensures Broadcast(a, a) == Some(a)
    ensures Broadcast(a, Shape(a.channels, 1, 1)) == Some(a)
  {
  }

  /** `ceil(n / s)`: the length a "same"-padded stride-s convolution yields. */
  function CeilDiv(n: nat, s: Pos): nat {
    (n + s - 1) / s
  }

  /** A kernel of 2s + 1 with padding s at stride s, for s in {1, 2}, maps
      length n to ceil(n / s): 3x3/pad 1 keeps the size, 5x5/pad 2 at
      stride 2 maps n to (n + 1) / 2. */
  lemma DepthwiseOutSize(n: nat, s: Pos)
    requires s == 1 || s == 2
    requires n >= 1
    ensures ConvOutSize(n, 2 * s + 1, s, s) == Some(CeilDiv(n, s))
    ensures CeilDiv(n, s) >= 1
    ensures s == 1 ==> CeilDiv(n, s) == n
    ensures s == 2 ==> CeilDiv(n, s) == (n + 1) / 2
  {
  }

  /** A 1x1 convolution at stride 1 keeps the spatial size. */
  lemma PointwiseOutSize(n: nat)
    requires n >= 1
    ensures ConvOutSize(n, 1, 0, 1) == Some(n)
  {
  }
}

=== FILE: stage_config.dfy ===
/** The stage table of MicroNet and its rescaling by a width and a depth
    factor (`MicroNet_imagenet.change_cfg`). */
module StageConfig {

  type Pos = n: nat | n > 0 witness 1

  /** A non-negative scaling factor held as the exact fraction num / den.
      Python's `int(x * f)` on a non-negative product is its floor. */
  datatype Factor = Factor(num: nat, den: Pos)

  const Unit: Factor := Factor(1, 1)

  /** One row of the stage table: (expansion, out_planes, num_blocks, stride). */
  datatype StageCfg = StageCfg(expansion: nat, outPlanes: nat, numBlocks: nat, stride: nat)

  /** The table the network is built from before rescaling. */
  const DefaultCfg: seq<StageCfg> := [
    StageCfg(1, 16, 2, 1),
    StageCfg(3, 24, 1, 2),
    StageCfg(3, 24, 2, 1),
    StageCfg(3, 40, 1, 2),
    StageCfg(3, 40, 2, 1),
    StageCfg(3, 80, 1, 2),
    StageCfg(3, 80, 2, 1),
    StageCfg(3, 96, 2, 1),
    StageCfg(3, 192, 1, 2),
    StageCfg(3, 192, 3, 1),
    StageCfg(3, 320, 1, 1)
  ]

  /** `int(x * f)`: the largest natural r with r <= x * f. */
  function Scale(x: nat, f: Factor): (r: nat)
    ensures r * f.den <= x * f.num < (r + 1) * f.den
  {
    x * f.num / f.den
  }

  /** `int(x * f)` never decreases as x grows. */
  lemma ScaleMonotone(x: nat, y: nat, f: Factor)
    requires x <= y
    ensures Scale(x, f) <= Scale(y, f)
  {
    assert x * f.num <= y * f.num by {
      assert y * f.num == x * f.num + (y - x) * f.num;
    }
  }

  /** Every stride of the table is one the blocks know how to build. */
  predicate SupportedStrides(cfg: seq<StageCfg>) {
    forall i :: 0 <= i < |cfg| ==> cfg[i].stride == 1 || cfg[i].stride == 2
  }

  /** The rescaling of one row: widths always, depth only on stride-1 rows. */
  function ScaleStage(s: StageCfg, wide: Factor, depth: Factor): StageCfg {
    s.(outPlanes := Scale(s.outPlanes, wide),
       numBlocks := if s.stride == 1 then Scale(s.numBlocks, depth) else s.numBlocks)
  }

  /** `change_cfg`: rescale every row of the table, in place and in order. */
  function ChangeCfg(cfg: seq<StageCfg>, wide: Factor, depth: Factor): (r: seq<StageCfg>)
    ensures |r| == |cfg|
    ensures forall i :: 0 <= i < |cfg| ==>
              && r[i].expansion == cfg[i].expansion
              && r[i].stride == cfg[i].stride
              && r[i].outPlanes == Scale(cfg[i].outPlanes, wide)
    ensures forall i :: 0 <= i < |cfg| && cfg[i].stride == 1 ==>
              r[i].numBlocks == Scale(cfg[i].numBlocks, depth)
    ensures forall i :: 0 <= i < |cfg| && cfg[i].stride != 1 ==>
              r[i].numBlocks == cfg[i].numBlocks
  {
    if |cfg| == 0 then []
    else [ScaleStage(cfg[0], wide, depth)] + ChangeCfg(cfg[1..], wide, depth)
  }

  /** Scaling by the unit factor is the identity. */
  lemma ScaleUnit(x: nat)
    ensures Scale(x, Unit) == x
  {
  }

  /** With the default factors (1, 1) the table is left unchanged. */
  lemma {:induction false} ChangeCfgUnit(cfg: seq<StageCfg>)
    ensures ChangeCfg(cfg, Unit, Unit) == cfg
  {
    var r := ChangeCfg(cfg, Unit, Unit);
    forall i | 0 <= i < |cfg|
      ensures r[i] == cfg[i]
    {
      ScaleUnit(cfg[i].outPlanes);
      ScaleUnit(cfg[i].numBlocks);
    }
  }

  /** Rescaling never changes which strides occur. */
  lemma ChangeCfgKeepsStrides(cfg: seq<StageCfg>, wide: Factor, depth: Factor)
    requires SupportedStrides(cfg)
    ensures SupportedStrides(ChangeCfg(cfg, wide, depth))
  {
  }

  lemma DefaultStridesSupported()
    ensures SupportedStrides(DefaultCfg)
  {
  }
}

=== FILE: wrappers.dfy ===
/** A failure-compatible Option, used for the points where the network
    definition fails at run time (a missing layer, a shape mismatch,
    an index into an empty list). */
module Wrappers {

  datatype Option<+T> = None | Some(value: T) {

    predicate IsFailure() {
      None?
    }

    function PropagateFailure<U>(): Option<U>
      requires None?
    {
      None
    }

    function Extract(): T
      requires Some?
    {
      value
    }
  }
}
